=== FILE: README.md ===
# Weather dashboard decision rules

A functional model of the pure decision rules inside the weather dashboard's
`script.js`: how each weather provider's response becomes a 24-hour forecast
window, how the forecast strip orders its items and chooses the item it
scrolls to, the temperature colour buckets, the responsive map zoom, the
default day/night theme, and the recent-search history a place selection
updates. "Now" (epoch milliseconds), the current hour, the viewport widths and
the saved theme preference are parameters. Temperatures arrive already
rounded and timestamps already parsed to integer milliseconds.

Modules: `Wrappers` (the `Option` type), `Forecast` (the normalized forecast
entry, its sort key and the instant the renderer compares with now),
`StableSort` (the stable sort by key), `Render` (`renderForecastItems`),
`Providers` (the OpenWeatherMap 5-day, One Call and Open-Meteo windows),
`TempColor`, `MapZoom`, `Theme`, and `History` (`addRecentSearch`,
`selectPlace`).

Where the model departs from what the source's own comments say:

- Next to the `firstIdx` update the code says it chooses "first index that's
  the nearest upcoming hour" (script.js:439). But `firstIdx === 0` serves both
  as "nothing chosen yet" and as a real index. So the loop picks the least
  index k >= 1 whose entry is upcoming, or 0 when there is none.
  `Render.ScrollIndex` models the loop as written.
  `Render.ScrollSkipsUpcomingHead` and `Providers.OwmScrollsToSecond` show the
  consequence: with two upcoming entries at the head, the strip scrolls to the
  second.
- The OpenWeatherMap filter is commented "within next 24 hours"
  (script.js:358, 375). It keeps both ends, `now <= ts <= now + 86 400 000`,
  and does not limit how many entries it keeps. The fallback's "first 8
  entries (~24h)" (script.js:377) is exactly the first `min(8, n)` items,
  whatever times they carry.

## Model

| member | source | states |
|---|---|---|
| StableSort.Sort | script.js:430 | the displayed order is sorted by `ts`, with a missing timestamp as 0, and is a permutation of the input |
| StableSort.SortIsStable | script.js:430 | entries with equal sort keys keep their input order, as `Array.prototype.sort` guarantees |
| StableSort.SortOfSortedIsIdentity | script.js:430 | input already in timestamp order is returned unchanged |
| Render.LeastUpcoming | script.js:439-445 | reference search: the least index at or after a start whose entry is at or after now, or none when no such index exists |
| Render.ScrollIndex | script.js:431-445 | the `forEach` as written yields the least index k >= 1 whose entry is upcoming, else 0, and always a valid index of a non-empty list |
| Render.RenderForecast | script.js:422-464 | empty input gives exactly the "Forecast unavailable" view; otherwise the items are a sorted permutation of the input and the scroll target is a valid index chosen by the k >= 1 rule |
| Render.RenderIsStable | script.js:430 | the rendered list keeps every class of equal timestamps in input order |
| Render.RenderKeepsSortedInput | script.js:430 | input in timestamp order is rendered in that order |
| Render.ScrollSkipsUpcomingHead | script.js:440 | with two upcoming entries at the head the strip scrolls to index 1, though the first upcoming entry is at index 0 |
| Providers.OwmEntry | script.js:369-374 | an OpenWeatherMap item's sort key is its `dt` in seconds times 1000 |
| Providers.KeepInDayIsOrderedSelection | script.js:375-376 | the 24-hour filter keeps exactly the entries inside the window, in input order |
| Providers.KeepInDayCounts | script.js:375-376 | the filter keeps every copy of an in-window entry and no copy of any other entry |
| Providers.KeptIsNonEmpty | script.js:376-378 | the filtered list is non-empty exactly when some item lies inside the window |
| Providers.OwmWindow | script.js:365-383 | the window is the filtered list when some item lies inside it, and otherwise the first min(8, n) mapped items |
| Providers.OwmWindowShape | script.js:365-383 | every kept entry satisfies `now <= ts <= now + 86 400 000`; kept entries form a subsequence of the input; every in-window item is kept; the fallback is the first min(8, n) items |
| Providers.OwmWindowKeepsEveryCopy | script.js:367-376 | when some item lies in the window, the window holds as many copies of each in-window entry as the mapped list does, and nothing else |
| Providers.OwmUnavailableIffEmpty | script.js:367-384 | the OpenWeatherMap path shows "Forecast unavailable" exactly when the forecast list is empty |
| Providers.OwmScrollsToSecond | script.js:365-440 | with the filter clock (`Date.now()`) no later than the render clock (`new Date()`), the render clock positive, no kept entry falling between the two readings, and two or more entries kept, the strip scrolls to index 1 |
| Providers.HourlyEntry | script.js:318-323 | a One Call hour's key is `(dt or 0)` times 1000 and the renderer compares that same instant |
| Providers.OneCallWindow | script.js:318-323 | the One Call forecast is the first min(24, n) hours, each mapped in place |
| Providers.OneCallShownInOrder | script.js:318-324 | hours delivered in time order are rendered in that order, and the strip is unavailable only for an empty hourly block |
| Providers.FindAtOrAfter | script.js:404 | `findIndex` finds the least index whose time is at or after now, or reports none when every time is earlier |
| Providers.OpenMeteoWindow | script.js:393-419 | missing hourly data gives no window; otherwise the contiguous slice from the start index, of length min(start + 24, n) - start <= 24, empty exactly when `times` is empty |
| Providers.OpenMeteoStart | script.js:404-408 | the window starts at the first sample at or after now when there is one; a series wholly in the past yields its first min(24, n) samples |
| Providers.OpenMeteoView | script.js:394-418 | the Open-Meteo path shows "Forecast unavailable" exactly when `hourly.time` is missing or empty |
| TempColor.TempToColor | script.js:467-476 | a non-numeric temperature gets the theme default colour; every number gets one of the five bucket colours |
| TempColor.Warmth | script.js:471-475 | reference bucket: the number of the thresholds 0, 10, 20, 30 the temperature exceeds, always a palette index |
| TempColor.ColorIsBucket | script.js:471-475 | the colour is the palette entry of the bucket: <= 0, (0, 10], (10, 20], (20, 30], above 30 |
| TempColor.PaletteIsInjective | script.js:471-475 | the five colours are distinct |
| TempColor.ColorIsMonotone | script.js:471-475 | a warmer temperature never gets a colder bucket colour |
| MapZoom.ViewportWidth | script.js:72 | the window width when it is non-zero, else the document width when that is non-zero, else 980 |
| MapZoom.ZoomFor | script.js:73-75 | the zoom is always 8, 9 or 10 |
| MapZoom.GetMapZoom | script.js:71-76 | for the width chosen by the fallback chain: 8 exactly up to 520, 9 exactly for 520 < w <= 900, 10 exactly above 900; no readable width gives 10 |
| MapZoom.ZoomIsMonotone | script.js:73-75 | the zoom never decreases as the width grows |
| MapZoom.ZoomBands | script.js:73-75 | 8 for w <= 520, 9 for 520 < w <= 900, 10 above 900, with both directions of each band |
| Theme.DetectDefault | script.js:47-54 | a saved `day` or `night` is returned; otherwise day exactly when 7 <= hour < 19 |
| Theme.SavedThemeRoundTrip | script.js:42-54 | the name `applyTheme` saves is restored by the next start-up at any hour |
| History.AddRecent | script.js:185-193 | a name already present leaves the history unchanged; a new name is appended at the end with every earlier entry kept in order |
| History.AddRecentIdempotent | script.js:185-193 | inserting the same name twice equals inserting it once |
| History.AddRecentKeepsNoDuplicates | script.js:185-193 | a duplicate-free history stays duplicate-free |
| History.SelectAllShape | script.js:185-193 | any run of selections keeps the earlier history as a prefix and ends with one entry per distinct name |
| History.SelectPlace | script.js:273-280 | a selection shows the name in the search box, clears the suggestions, shows the spinner, centres map and popup on the place at the zoom `getMapZoom` gives, and sets the history to `addRecentSearch`'s result |
| History.SelectPlaceTwice | script.js:273-280 | selecting the same place again leaves one history entry; only the zoom follows the new viewport width |

## Left out

- Network requests, URL building and the One Call to `/weather` fallback sequencing in `fetchWeather`, and the place search (`nominatimSearch`, autocomplete): these are I/O against external APIs whose response shapes are not part of this model.
- Failed requests: only a failed `fetchForecastOWM` request shows "Forecast unavailable" (its own catch). On the Open-Meteo path and the One Call to `/weather` path, a failed request reaches `fetchWeather`'s catch instead. That catch sets the location name to `Error` and leaves the previous place's forecast list on screen. The model has no request failures. Its `Unavailable` view is produced only by an empty or missing forecast.
- The current-conditions card (`updateWeatherUI`, the `Error` marker, the spinner hiding in `finally`): display text over already-normalized values.
- DOM and map-library calls: map and marker updates, tile overlays, the map refresh button, fullscreen handling, `invalidateSize`, `refreshMapLayout`. Only the zoom and centre a selection sets are modelled.
- `localStorage` reads and writes and their swallowed exceptions: the saved theme is an `Option<string>` parameter. The theme's CSS classes and the day/night toggle wiring are not modelled.
- Timers and animation: `debounce`, `setTimeout`, `requestAnimationFrame`, `animateTempChange`, the marker bounce, and the last-writer-wins race between overlapping fetches.
- Floating point, formatting and parsing: `Math.round`, `toFixed`, `parseFloat`, date-text parsing, `toLocaleTimeString` and the item display text. Temperatures are passed rounded and times as integer milliseconds, with `None` for a value that is not a number.
- Render.RenderForecast: compares every entry with one value of now, while the source calls `new Date()` afresh for each item.
- Providers.OwmScrollsToSecond: takes the filter's clock reading and the renderer's as two parameters, and is stated only for the case where every kept entry is at or after the render clock. Kept entries that fall between the two readings sort to the front. With at most one such entry the strip still scrolls to index 1. With two or more, it scrolls to the first kept entry at or after the render clock, or to index 0 when every kept entry falls between the readings. Those cases are not stated as lemmas.
- Providers.OwmEntry: takes `dt` as always present; an item without `dt` (whose timestamp would be `NaN`) is not represented.
- Providers.OpenMeteoWindow: takes `hourly.time` as already-parsed instants, so an unparseable time text (which `findIndex` would skip) is not represented.
- The recent-search `change` handler, which re-selects only names in the built-in city list, and the local city suggestions: UI wiring.

=== FILE: forecast.dfy ===
/** The normalized forecast record shared by both weather providers and the
    renderer, together with the two ways the renderer reads its time. */
module Forecast {
  import opened Wrappers

  /** What the third line of a forecast item shows: the provider's textual
      condition, or (Open-Meteo) a relative-humidity reading, `None` when the
      reading is absent or zero and the item shows `--`. */
  datatype Condition = Label(text: string) | RelHumidity(pct: Option<int>)

  /** One forecast item `{ts, time, temp, cond}`.
      `ts`   epoch milliseconds; `None` when undefined or `NaN`.
      `time` the instant the item's `time` text parses to; `None` when the
             text is absent or does not parse.
      `temp` the rounded temperature; `None` when it is not a number. */
  datatype Entry = Entry(ts: Option<int>, time: Option<int>, temp: Option<int>, cond: Condition)

  /** The sort key `(ts || 0)`: a missing timestamp sorts as 0. */
  function Key(e: Entry): int {
    e.ts.GetOr(0)
  }

  /** The instant the renderer compares with "now": `ts` when it is truthy
      (present and non-zero), otherwise the parsed `time` text. */
  function Instant(e: Entry): Option<int> {
    if e.ts.Some? && e.ts.value != 0 then e.ts else e.time
  }

  /** The entry lies at or after `now`. */
  predicate Upcoming(e: Entry, now: int) {
    Instant(e).Some? && Instant(e).value >= now
  }

  predicate SortedByKey(s: seq<Entry>) {
    forall i, j :: 0 <= i < j < |s| ==> Key(s[i]) <= Key(s[j])
  }

  /** The entries of `s` whose key is `k`, in the order they occur in `s`;
      a sort is stable when it leaves every such class unchanged. */
  function KeyClass(s: seq<Entry>, k: int): seq<Entry> {
    if s == [] then []
    else if Key(s[0]) == k then [s[0]] + KeyClass(s[1..], k)
    else KeyClass(s[1..], k)
  }
}

=== FILE: history.dfy ===
/** `addRecentSearch` and `selectPlace`: the recent-search list and the state
    a place selection commits before the weather fetch starts. */
module History {
  import MapZoom

  /** Names occur at most once. */
  predicate NoDuplicates(h: seq<string>) {
    forall i, j :: 0 <= i < j < |h| ==> h[i] != h[j]
  }

  /** Appends `name` unless an option with exactly that value exists. */
  function AddRecent(history: seq<string>, name: string): (r: seq<string>)
    ensures name in history ==> r == history
    ensures name !in history ==> |r| == |history| + 1 && r[..|history|] == history && r[|history|] == name
    ensures forall x :: x in r <==> x in history || x == name
  {
    if name in history then history else history + [name]
  }

  /** Selecting the same name again changes nothing. */
  lemma AddRecentIdempotent(history: seq<string>, name: string)
    ensures AddRecent(AddRecent(history, name), name) == AddRecent(history, name)
  {
  }

  lemma AddRecentKeepsNoDuplicates(history: seq<string>, name: string)
    requires NoDuplicates(history)
    ensures NoDuplicates(AddRecent(history, name))
  {
  }

  /** The history after selecting `names` in turn, starting from `start`. */
  function SelectAll(start: seq<string>, names: seq<string>): seq<string>
    decreases |names|
  {
    if names == [] then start
    else AddRecent(SelectAll(start, names[..|names| - 1]), names[|names| - 1])
  }

  /** Any run of selections from a duplicate-free history leaves one entry per
      distinct name, the earlier entries first and in their order. */
  lemma {:induction false} SelectAllShape(start: seq<string>, names: seq<string>)
    requires NoDuplicates(start)
    ensures var h := SelectAll(start, names);
      NoDuplicates(h) && |start| <= |h| && h[..|start|] == start &&
      forall x :: x in h <==> x in start || x in names
  {
    if names != [] {
      var init := names[..|names| - 1];
      SelectAllShape(start, init);
      var prev := SelectAll(start, init);
      AddRecentKeepsNoDuplicates(prev, names[|names| - 1]);
      assert names == init + [names[|names| - 1]];
      var h := AddRecent(prev, names[|names| - 1]);
      assert h[..|prev|] == prev;
      assert h[..|start|] == prev[..|start|];
    }
  }

  datatype Coords = Coords(lat: real, lon: real)

  /** The part of the page a selection writes to. */
  datatype Page = Page(
    searchText: string,
    suggestions: seq<string>,
    spinner: bool,
    center: Coords,
    zoom: int,
    popup: string,
    recent: seq<string>)

  /** `selectPlace(name, coords)` up to the weather fetch, which is not part of
      this model: the search box reads the name, the suggestions are cleared,
      the spinner shows, the map and marker move to the place, and the name
      enters the recent searches. */
  function SelectPlace(p: Page, name: string, coords: Coords, innerWidth: nat, clientWidth: nat): (q: Page)
    ensures q.searchText == name && q.suggestions == [] && q.spinner
    ensures q.center == coords && q.popup == name
    ensures q.zoom == MapZoom.GetMapZoom(innerWidth, clientWidth)
    ensures q.recent == AddRecent(p.recent, name)
    ensures name in q.recent && forall x :: x in p.recent ==> x in q.recent
  {
    Page(name, [], true, coords, MapZoom.GetMapZoom(innerWidth, clientWidth), name,
         AddRecent(p.recent, name))
  }

  /** Selecting the same place a second time, at whatever viewport width,
      gives the page a single selection at that width gives: the history
      gains no second entry and only the zoom follows the new width. */
  lemma SelectPlaceTwice(p: Page, name: string, coords: Coords, w1: nat, c1: nat, w2: nat, c2: nat)
    ensures var once := SelectPlace(p, name, coords, w2, c2);
      var twice := SelectPlace(SelectPlace(p, name, coords, w1, c1), name, coords, w2, c2);
      twice == once
  {
  }
}

=== FILE: map_zoom.dfy ===
/** `getMapZoom`: the zoom level the map is centred at, from the viewport width. */
module MapZoom {

  /** Used when neither width can be read (both read 0 or are absent). */
  const DefaultWidth: nat := 980

  /** `window.innerWidth || document.documentElement.clientWidth || 980`:
      a width of 0 is falsy and an absent one is passed as 0. */
  function ViewportWidth(innerWidth: nat, clientWidth: nat): (w: nat)
    ensures w > 0
    ensures innerWidth > 0 ==> w == innerWidth
    ensures innerWidth == 0 && clientWidth > 0 ==> w == clientWidth
    ensures innerWidth == 0 && clientWidth == 0 ==> w == DefaultWidth
  {
    if innerWidth != 0 then innerWidth
    else if clientWidth != 0 then clientWidth
    else DefaultWidth
  }

  /** Phone, tablet and desktop breakpoints. */
  function ZoomFor(w: int): (z: int)
    ensures 8 <= z <= 10
  {
    if w <= 520 then 8
    else if w <= 900 then 9
    else 10
  }

  function GetMapZoom(innerWidth: nat, clientWidth: nat): (z: int)
    ensures innerWidth == 0 && clientWidth == 0 ==> z == 10
    ensures var w := ViewportWidth(innerWidth, clientWidth);
      (z == 8 <==> w <= 520) && (z == 9 <==> 520 < w <= 900) && (z == 10 <==> 900 < w)
  {
    ZoomFor(ViewportWidth(innerWidth, clientWidth))
  }

  /** A wider viewport never zooms further out. */
  lemma ZoomIsMonotone(v: int, w: int)
    requires v <= w
    ensures ZoomFor(v) <= ZoomFor(w)
  {
  }

  /** The breakpoints belong to the narrower band. */
  lemma ZoomBands(w: int)
    ensures ZoomFor(w) == 8 <==> w <= 520
    ensures ZoomFor(w) == 9 <==> 520 < w <= 900
    ensures ZoomFor(w) == 10 <==> 900 < w
  {
  }
}

=== FILE: providers.dfy ===
/** The forecast windows of the three provider paths: the OpenWeatherMap
    5-day forecast (`fetchForecastOWM`), the One Call hourly block inside
    `fetchWeather`, and Open-Meteo (`updateForecastOpenMeteo`). "Now" is a
    parameter in epoch milliseconds; temperatures arrive already rounded. */
module Providers {
  import opened Wrappers
  import opened Forecast
  import opened Render

  /** 24 * 60 * 60 * 1000 */
  const DayMillis: int := 86_400_000

  /** Entries the OpenWeatherMap path falls back to when none lies in the window. */
  const FallbackCount: nat := 8

  /** Samples the One Call and Open-Meteo paths take at most. */
  const HourlyCount: nat := 24

  function Min(a: int, b: int): int {
    if a <= b then a else b
  }

  // ---------------------------------------------------------------------------
  // OpenWeatherMap 5-day forecast

  /** One element of `data.list`: `dt` in epoch seconds, the instant `dt_txt`
      parses to, `main.temp` rounded, and `weather[0].main` when present. */
  datatype OwmItem = OwmItem(dt: int, dtTxt: Option<int>, temp: int, weatherMain: Option<string>)

  function OwmEntry(item: OwmItem): (e: Entry)
    ensures Key(e) == item.dt * 1000
  {
    Entry(Some(item.dt * 1000), item.dtTxt, Some(item.temp), Label(item.weatherMain.GetOr("")))
  }

  function OwmEntries(list: seq<OwmItem>): (r: seq<Entry>)
    ensures |r| == |list|
    ensures forall i :: 0 <= i < |list| ==> r[i] == OwmEntry(list[i])
  {
    seq(|list|, i requires 0 <= i < |list| => OwmEntry(list[i]))
  }

  /** `it.ts >= nowTs && it.ts <= dayAheadTs`: both ends included. */
  predicate InDay(e: Entry, now: int) {
    e.ts.Some? && now <= e.ts.value <= now + DayMillis
  }

  function KeepInDay(s: seq<Entry>, now: int): seq<Entry> {
    if s == [] then []
    else (if InDay(s[0], now) then [s[0]] else []) + KeepInDay(s[1..], now)
  }

  /** `a` is `b` with some elements deleted, the rest in their order. */
  predicate IsSubsequence(a: seq<Entry>, b: seq<Entry>)
    decreases |b|
  {
    if a == [] then true
    else if b == [] then false
    else if a[0] == b[0] then IsSubsequence(a[1..], b[1..])
    else IsSubsequence(a, b[1..])
  }

  lemma {:induction false} KeepInDayIsOrderedSelection(s: seq<Entry>, now: int)
    ensures IsSubsequence(KeepInDay(s, now), s)
    ensures forall e :: e in KeepInDay(s, now) <==> e in s && InDay(e, now)
  {
    if s != [] {
      KeepInDayIsOrderedSelection(s[1..], now);
      var r := KeepInDay(s, now);
      if InDay(s[0], now) {
        assert r == [s[0]] + KeepInDay(s[1..], now);
        assert r[0] == s[0] && r[1..] == KeepInDay(s[1..], now);
      } else {
        assert r == KeepInDay(s[1..], now);
        SubsequenceOfTail(r, s);
      }
      assert s == [s[0]] + s[1..];
    }
  }

  /** The filter keeps every copy of an in-window entry and no copy of any other. */
  lemma {:induction false} KeepInDayCounts(s: seq<Entry>, now: int)
    ensures forall e :: multiset(KeepInDay(s, now))[e] == if InDay(e, now) then multiset(s)[e] else 0
  {
    if s != [] {
      KeepInDayCounts(s[1..], now);
      assert s == [s[0]] + s[1..];
    }
  }

  lemma SubsequenceOfTail(a: seq<Entry>, b: seq<Entry>)
    requires b != [] && IsSubsequence(a, b[1..])
    requires a != [] ==> a[0] != b[0]
    ensures IsSubsequence(a, b)
  {
  }

  /** The entries `fetchForecastOWM` hands to the renderer. */
  function OwmWindow(list: seq<OwmItem>, now: int): (r: seq<Entry>)
    ensures (exists i :: 0 <= i < |list| && InDay(OwmEntry(list[i]), now)) ==>
              r == KeepInDay(OwmEntries(list), now) && r != []
    ensures (forall i :: 0 <= i < |list| ==> !InDay(OwmEntry(list[i]), now)) ==>
              r == OwmEntries(list[..Min(FallbackCount, |list|)])
  {
    var kept := KeepInDay(OwmEntries(list), now);
    KeptIsNonEmpty(list, now);
    if |kept| > 0 then kept else OwmEntries(list[..Min(FallbackCount, |list|)])
  }

  lemma KeptIsNonEmpty(list: seq<OwmItem>, now: int)
    ensures (exists i :: 0 <= i < |list| && InDay(OwmEntry(list[i]), now)) <==>
            KeepInDay(OwmEntries(list), now) != []
  {
    var all := OwmEntries(list);
    KeepInDayIsOrderedSelection(all, now);
    if exists i :: 0 <= i < |list| && InDay(OwmEntry(list[i]), now) {
      var i :| 0 <= i < |list| && InDay(OwmEntry(list[i]), now);
      assert all[i] in KeepInDay(all, now);
    }
    var kept := KeepInDay(all, now);
    if kept != [] {
      assert kept[0] in kept;
      var j :| 0 <= j < |all| && all[j] == kept[0];
      assert InDay(OwmEntry(list[j]), now);
    }
  }

  /** Every kept entry lies in the next 24 hours, the kept entries are the
      in-window ones in input order, and otherwise the first eight are used. */
  lemma OwmWindowShape(list: seq<OwmItem>, now: int)
    ensures var r := OwmWindow(list, now);
      if exists i :: 0 <= i < |list| && InDay(OwmEntry(list[i]), now) then
        IsSubsequence(r, OwmEntries(list)) &&
        (forall j :: 0 <= j < |r| ==> now <= Key(r[j]) <= now + DayMillis) &&
        (forall i :: 0 <= i < |list| && InDay(OwmEntry(list[i]), now) ==> OwmEntry(list[i]) in r)
      else
        |r| == Min(FallbackCount, |list|) &&
        forall j :: 0 <= j < |r| ==> r[j] == OwmEntry(list[j])
  {
    var all := OwmEntries(list);
    KeepInDayIsOrderedSelection(all, now);
    if exists i :: 0 <= i < |list| && InDay(OwmEntry(list[i]), now) {
      var r := OwmWindow(list, now);
      forall j | 0 <= j < |r|
        ensures now <= Key(r[j]) <= now + DayMillis
      {
        assert r[j] in r;
      }
      forall i | 0 <= i < |list| && InDay(OwmEntry(list[i]), now)
        ensures OwmEntry(list[i]) in r
      {
        assert all[i] in all;
      }
    }
  }

  /** When some item lies in the window, the window holds every copy of each
      in-window entry, as `.filter` does, and nothing else. */
  lemma OwmWindowKeepsEveryCopy(list: seq<OwmItem>, now: int)
    requires exists i :: 0 <= i < |list| && InDay(OwmEntry(list[i]), now)
    ensures forall e :: multiset(OwmWindow(list, now))[e] ==
              if InDay(e, now) then multiset(OwmEntries(list))[e] else 0
  {
    KeepInDayCounts(OwmEntries(list), now);
  }

  /** The OpenWeatherMap path shows "Forecast unavailable" exactly when the
      list is empty (a non-empty list always yields a window or a fallback). */
  lemma OwmUnavailableIffEmpty(list: seq<OwmItem>, now: int)
    ensures RenderForecast(OwmWindow(list, now), now).Unavailable? <==> |list| == 0
  {
  }

  /** The window is filtered with one clock reading (`Date.now()`) and the
      strip compares with a later one (`new Date()` per item). When no kept
      entry falls between the two readings and two or more entries are kept,
      every shown entry is upcoming, so the strip scrolls to the second one. */
  lemma OwmScrollsToSecond(list: seq<OwmItem>, filterNow: int, renderNow: int)
    requires 0 < renderNow && filterNow <= renderNow
    requires |OwmWindow(list, filterNow)| >= 2
    requires exists i :: 0 <= i < |list| && InDay(OwmEntry(list[i]), filterNow)
    requires forall i :: 0 <= i < |list| && InDay(OwmEntry(list[i]), filterNow) ==>
               list[i].dt * 1000 >= renderNow
    ensures RenderForecast(OwmWindow(list, filterNow), renderNow).scrollTo == 1
  {
    var all := OwmEntries(list);
    KeepInDayIsOrderedSelection(all, filterNow);
    var w := OwmWindow(list, filterNow);
    var v := RenderForecast(w, renderNow);
    var x := v.items[1];
    assert x in multiset(w);
    assert x in all && InDay(x, filterNow);
    var i :| 0 <= i < |all| && all[i] == x;
    assert Upcoming(x, renderNow);
  }

  // ---------------------------------------------------------------------------
  // One Call hourly block

  /** One element of `data.hourly`: `dt` in epoch seconds (absent or 0 both
      read as 0), `temp` rounded, and `weather[0].main` when present. */
  datatype HourlyItem = HourlyItem(dt: Option<int>, temp: int, weatherMain: Option<string>)

  /** `time` is the ISO text of the same instant, which always parses back. */
  function HourlyEntry(h: HourlyItem): (e: Entry)
    ensures Key(e) == h.dt.GetOr(0) * 1000 && Instant(e) == Some(Key(e))
  {
    var ts := h.dt.GetOr(0) * 1000;
    Entry(Some(ts), Some(ts), Some(h.temp), Label(h.weatherMain.GetOr("")))
  }

  /** `(data.hourly || []).slice(0, 24).map(...)` */
  function OneCallWindow(hourly: seq<HourlyItem>): (r: seq<Entry>)
    ensures |r| == Min(HourlyCount, |hourly|)
    ensures forall i :: 0 <= i < |r| ==> r[i] == HourlyEntry(hourly[i])
  {
    var n := Min(HourlyCount, |hourly|);
    seq(n, i requires 0 <= i < n => HourlyEntry(hourly[i]))
  }

  /** Hours delivered in time order are shown in that order, and the strip is
      "Forecast unavailable" only when the hourly block is empty. */
  lemma OneCallShownInOrder(hourly: seq<HourlyItem>, now: int)
    requires forall i, j :: 0 <= i < j < |hourly| ==> hourly[i].dt.GetOr(0) <= hourly[j].dt.GetOr(0)
    ensures var v := RenderForecast(OneCallWindow(hourly), now);
      (v.Unavailable? <==> |hourly| == 0) &&
      (v.Listed? ==> v.items == OneCallWindow(hourly))
  {
    var w := OneCallWindow(hourly);
    forall i, j | 0 <= i < j < |w|
      ensures Key(w[i]) <= Key(w[j])
    {
      assert Key(w[i]) == hourly[i].dt.GetOr(0) * 1000;
      assert Key(w[j]) == hourly[j].dt.GetOr(0) * 1000;
    }
    if |w| > 0 {
      RenderKeepsSortedInput(w, now);
    }
  }

  // ---------------------------------------------------------------------------
  // Open-Meteo

  /** `data.hourly`: the instants of `time`, `temperature_2m` rounded (an
      absent array is `[]`), and `relativehumidity_2m` (likewise). */
  datatype Hourly = Hourly(times: seq<int>, temps: seq<int>, hums: seq<int>)

  /** `times.findIndex(t => new Date(t) >= now)`, `None` for -1. */
  function FindAtOrAfter(times: seq<int>, now: int): (r: Option<nat>)
    ensures r.Some? ==> r.value < |times| && times[r.value] >= now
    ensures r.Some? ==> forall k :: 0 <= k < r.value ==> times[k] < now
    ensures r.None? ==> forall k :: 0 <= k < |times| ==> times[k] < now
  {
    if times == [] then None
    else if times[0] >= now then Some(0)
    else match FindAtOrAfter(times[1..], now)
      case None => None
      case Some(i) => Some(i + 1)
  }

  /** `idx`, with -1 replaced by 0. */
  function StartIndex(times: seq<int>, now: int): nat {
    FindAtOrAfter(times, now).GetOr(0)
  }

  /** The i-th sample: `hums[i] || '--'` leaves the reading out when it is
      absent or zero; a temperature past the end of its array is not a number. */
  function SampleEntry(h: Hourly, i: nat): Entry
    requires i < |h.times|
  {
    Entry(Some(h.times[i]), Some(h.times[i]),
          if i < |h.temps| then Some(h.temps[i]) else None,
          RelHumidity(if i < |h.hums| && h.hums[i] != 0 then Some(h.hums[i]) else None))
  }

  /** `updateForecastOpenMeteo`: `None` when `data.hourly.time` is missing (the
      list shows "Forecast unavailable" directly); otherwise the samples
      `[idx, min(idx + 24, times.length))`. */
  function OpenMeteoWindow(data: Option<Hourly>, now: int): (r: Option<seq<Entry>>)
    ensures r.None? <==> data.None?
    ensures r.Some? ==> |r.value| <= HourlyCount
    ensures r.Some? ==> (|r.value| == 0 <==> |data.value.times| == 0)
    ensures r.Some? ==> var start := StartIndex(data.value.times, now);
              |r.value| == Min(start + HourlyCount, |data.value.times|) - start &&
              forall j :: 0 <= j < |r.value| ==> r.value[j] == SampleEntry(data.value, start + j)
  {
    match data
    case None => None
    case Some(h) =>
      var start := StartIndex(h.times, now);
      var end := Min(start + HourlyCount, |h.times|);
      Some(seq(end - start, j requires 0 <= j < end - start => SampleEntry(h, start + j)))
  }

  /** The window starts at the first sample at or after now; a series lying
      wholly in the past still yields its first (up to) 24 samples. */
  lemma OpenMeteoStart(h: Hourly, now: int)
    ensures var r := OpenMeteoWindow(Some(h), now).value;
      if exists k :: 0 <= k < |h.times| && h.times[k] >= now then
        r != [] && Key(r[0]) >= now &&
        forall k :: 0 <= k < StartIndex(h.times, now) ==> h.times[k] < now
      else
        |r| == Min(HourlyCount, |h.times|) &&
        forall j :: 0 <= j < |r| ==> r[j] == SampleEntry(h, j)
  {
  }

  /** Open-Meteo data shows "Forecast unavailable" exactly when `hourly.time`
      is missing or empty. */
  function OpenMeteoView(data: Option<Hourly>, now: int): (v: View)
    ensures v.Unavailable? <==> data.None? || |data.value.times| == 0
  {
    match OpenMeteoWindow(data, now)
    case None => Unavailable
    case Some(entries) => RenderForecast(entries, now)
  }
}

=== FILE: render.dfy ===
/** `renderForecastItems`: the list the forecast strip shows and the item it
    scrolls to. Display formatting (`toLocaleTimeString`, `°C`) is not part of
    this model; the view keeps the entries themselves. */
module Render {
  import opened Wrappers
  import opened Forecast
  import opened StableSort

  /** `Unavailable` is the single "Forecast unavailable" item; `Listed` holds
      the items in display order and the index the strip scrolls to. */
  datatype View = Unavailable | Listed(items: seq<Entry>, scrollTo: nat)

  /** Reference definition: the least index `i >= from` of an upcoming entry. */
  function LeastUpcoming(s: seq<Entry>, now: int, from: nat): (r: Option<nat>)
    ensures r.Some? ==> from <= r.value < |s| && Upcoming(s[r.value], now)
    ensures r.Some? ==> forall j :: from <= j < r.value ==> !Upcoming(s[j], now)
    ensures r.None? ==> forall j :: from <= j < |s| ==> !Upcoming(s[j], now)
    decreases |s| - from
  {
    if from >= |s| then None
    else if Upcoming(s[from], now) then Some(from)
    else LeastUpcoming(s, now, from + 1)
  }

  /** The `forEach` that picks `firstIdx`, as written: `firstIdx` starts at 0
      and is overwritten by an upcoming entry's index while it still reads 0.
      Because 0 doubles as "not chosen yet", an upcoming entry at index 0
      does not stop index 1 from taking over. */
  method ScrollIndex(sorted: seq<Entry>, now: int) returns (firstIdx: nat)
    ensures firstIdx == LeastUpcoming(sorted, now, 1).GetOr(0)
    ensures |sorted| > 0 ==> firstIdx < |sorted|
  {
    firstIdx := 0;
    var idx := 0;
    while idx < |sorted|
      invariant 0 <= idx <= |sorted|
      invariant firstIdx == 0 ==> forall k :: 1 <= k < idx ==> !Upcoming(sorted[k], now)
      invariant firstIdx != 0 ==> 1 <= firstIdx < idx && Upcoming(sorted[firstIdx], now)
      invariant firstIdx != 0 ==> forall k :: 1 <= k < firstIdx ==> !Upcoming(sorted[k], now)
    {
      if firstIdx == 0 && Upcoming(sorted[idx], now) {
        firstIdx := idx;
      }
      idx := idx + 1;
    }
    var least := LeastUpcoming(sorted, now, 1);
    if firstIdx != 0 {
      assert least.Some?;
      assert least.value == firstIdx;
    }
  }

  /** The index `renderForecastItems` scrolls to. */
  function ScrollTarget(sorted: seq<Entry>, now: int): nat {
    LeastUpcoming(sorted, now, 1).GetOr(0)
  }

  function RenderForecast(entries: seq<Entry>, now: int): (v: View)
    ensures v.Unavailable? <==> |entries| == 0
    ensures v.Listed? ==> SortedByKey(v.items) && multiset(v.items) == multiset(entries)
    ensures v.Listed? ==> v.scrollTo < |v.items|
    ensures v.Listed? && v.scrollTo != 0 ==>
              Upcoming(v.items[v.scrollTo], now) &&
              forall k :: 1 <= k < v.scrollTo ==> !Upcoming(v.items[k], now)
    ensures v.Listed? && v.scrollTo == 0 ==>
              forall k :: 1 <= k < |v.items| ==> !Upcoming(v.items[k], now)
  {
    if |entries| == 0 then Unavailable
    else
      var sorted := Sort(entries);
      Listed(sorted, ScrollTarget(sorted, now))
  }

  /** Rendering is the stable sort: equal keys keep their input order. */
  lemma RenderIsStable(entries: seq<Entry>, now: int, k: int)
    requires |entries| > 0
    ensures KeyClass(RenderForecast(entries, now).items, k) == KeyClass(entries, k)
  {
    SortIsStable(entries, k);
  }

  /** Input already in time order is shown in that order. */
  lemma RenderKeepsSortedInput(entries: seq<Entry>, now: int)
    requires |entries| > 0 && SortedByKey(entries)
    ensures RenderForecast(entries, now).items == entries
  {
    SortOfSortedIsIdentity(entries);
  }

  /** Where the code departs from "scroll to the first entry at or after now":
      with two or more upcoming entries at the head, the strip scrolls to the
      second one although the first is already upcoming. */
  lemma ScrollSkipsUpcomingHead(entries: seq<Entry>, now: int)
    requires |entries| >= 2
    requires SortedByKey(entries)
    requires Upcoming(entries[0], now) && Upcoming(entries[1], now)
    ensures RenderForecast(entries, now).scrollTo == 1
    ensures LeastUpcoming(RenderForecast(entries, now).items, now, 0) == Some(0)
  {
    SortOfSortedIsIdentity(entries);
  }
}

=== FILE: sorting.dfy ===
/** `entries.slice().sort((a, b) => (a.ts || 0) - (b.ts || 0))`.
    `Array.prototype.sort` is stable, so the result is THE stable sort of the
    entries by `Key`; it is written here as an insertion sort. */
module StableSort {
  import opened Forecast

  /** Places `e` before the first element whose key is not smaller. */
  function Insert(e: Entry, s: seq<Entry>): (r: seq<Entry>)
    requires SortedByKey(s)
    ensures SortedByKey(r)
    ensures multiset(r) == multiset(s) + multiset{e}
    ensures |r| == |s| + 1
  {
    if s == [] then [e]
    else if Key(e) <= Key(s[0]) then [e] + s
    else
      var tail := Insert(e, s[1..]);
      LowerBound(e, s, tail);
      [s[0]] + tail
  }

  /** Putting `s[0]` back in front of `tail`, the sorted insertion of a larger
      `e` into `s[1..]`, gives a sorted permutation of `s` plus `e`. */
  lemma LowerBound(e: Entry, s: seq<Entry>, tail: seq<Entry>)
    requires SortedByKey(s) && s != [] && Key(s[0]) < Key(e)
    requires SortedByKey(tail)
    requires multiset(tail) == multiset(s[1..]) + multiset{e}
    ensures SortedByKey([s[0]] + tail)
    ensures multiset([s[0]] + tail) == multiset(s) + multiset{e}
  {
    forall i | 0 <= i < |tail|
      ensures Key(s[0]) <= Key(tail[i])
    {
      assert tail[i] in multiset(tail);
      if tail[i] != e {
        assert tail[i] in multiset(s[1..]);
        var j :| 0 <= j < |s[1..]| && s[1..][j] == tail[i];
        assert s[j + 1] == tail[i];
      }
    }
    assert s == [s[0]] + s[1..];
  }

  function Sort(s: seq<Entry>): (r: seq<Entry>)
    ensures SortedByKey(r)
    ensures multiset(r) == multiset(s)
    ensures |r| == |s|
  {
    if s == [] then []
    else
      assert s == [s[0]] + s[1..];
      Insert(s[0], Sort(s[1..]))
  }

  /** One step of `KeyClass`: the head joins class `k` exactly when its key is `k`. */
  lemma KeyClassCons(x: Entry, s: seq<Entry>, k: int)
    ensures KeyClass([x] + s, k) == (if Key(x) == k then [x] else []) + KeyClass(s, k)
  {
    assert ([x] + s)[0] == x && ([x] + s)[1..] == s;
  }

  lemma {:induction false} InsertKeepsClasses(e: Entry, s: seq<Entry>, k: int)
    requires SortedByKey(s)
    ensures KeyClass(Insert(e, s), k) == (if Key(e) == k then [e] else []) + KeyClass(s, k)
  {
    if s == [] {
      KeyClassCons(e, [], k);
    } else if Key(e) <= Key(s[0]) {
      KeyClassCons(e, s, k);
    } else {
      var tail := Insert(e, s[1..]);
      assert Insert(e, s) == [s[0]] + tail;
      InsertKeepsClasses(e, s[1..], k);
      PassHead(s[0], e, tail, s[1..], k);
      KeyClassCons(s[0], s[1..], k);
      assert [s[0]] + s[1..] == s;
    }
  }

  /** Inserting past a head with a smaller key: the head's class membership
      and the inserted entry's commute, since at most one of them is in class `k`. */
  lemma PassHead(x: Entry, e: Entry, tail: seq<Entry>, rest: seq<Entry>, k: int)
    requires Key(x) < Key(e)
    requires KeyClass(tail, k) == (if Key(e) == k then [e] else []) + KeyClass(rest, k)
    ensures KeyClass([x] + tail, k) ==
            (if Key(e) == k then [e] else []) + ((if Key(x) == k then [x] else []) + KeyClass(rest, k))
  {
    KeyClassCons(x, tail, k);
    HeadsCommute(if Key(x) == k then [x] else [], if Key(e) == k then [e] else [], KeyClass(rest, k));
  }

  lemma HeadsCommute(h: seq<Entry>, m: seq<Entry>, rest: seq<Entry>)
    requires h == [] || m == []
    ensures h + (m + rest) == m + (h + rest)
  {
    if h == [] {
      assert h + (m + rest) == m + rest == m + (h + rest);
    } else {
      assert h + (m + rest) == h + rest == m + (h + rest);
    }
  }

  /** Stability: every class of equal keys keeps its input order. */
  lemma {:induction false} SortIsStable(s: seq<Entry>, k: int)
    ensures KeyClass(Sort(s), k) == KeyClass(s, k)
  {
    if s != [] {
      SortIsStable(s[1..], k);
      InsertKeepsClasses(s[0], Sort(s[1..]), k);
    }
  }

  /** The sort is defensive: input already in key order comes back unchanged. */
  lemma {:induction false} SortOfSortedIsIdentity(s: seq<Entry>)
    requires SortedByKey(s)
    ensures Sort(s) == s
  {
    if s != [] {
      SortOfSortedIsIdentity(s[1..]);
      assert s == [s[0]] + s[1..];
    }
  }
}

=== FILE: temp_color.dfy ===
/** `tempToColor`: the colour of the temperature display. */
module TempColor {
  import opened Wrappers

  /** The five bucket colours, coldest first. */
  const Palette: seq<string> := ["#6ec3ff", "#7fe0c9", "#ffd57a", "#ffb36b", "#ff6b6b"]

  /** `t` is `None` for `null`, `undefined` and anything `Number(t)` turns
      into `NaN`; those get `themeDefault`, the page's `--temp-color`. */
  function TempToColor(t: Option<real>, themeDefault: string): (c: string)
    ensures t.None? ==> c == themeDefault
    ensures t.Some? ==> c in Palette
  {
    match t
    case None => themeDefault
    case Some(v) =>
      if v <= 0.0 then "#6ec3ff"
      else if v <= 10.0 then "#7fe0c9"
      else if v <= 20.0 then "#ffd57a"
      else if v <= 30.0 then "#ffb36b"
      else "#ff6b6b"
  }

  /** Reference definition of the bucket: how many of the thresholds
      0, 10, 20 and 30 degrees the temperature exceeds. */
  function Warmth(v: real): (w: nat)
    ensures w < |Palette|
  {
    (if v > 0.0 then 1 else 0) + (if v > 10.0 then 1 else 0)
    + (if v > 20.0 then 1 else 0) + (if v > 30.0 then 1 else 0)
  }

  /** Every numeric temperature gets the colour of its bucket. */
  lemma ColorIsBucket(v: real, themeDefault: string)
    ensures TempToColor(Some(v), themeDefault) == Palette[Warmth(v)]
    ensures v <= 0.0 <==> Warmth(v) == 0
    ensures 0.0 < v <= 10.0 <==> Warmth(v) == 1
    ensures 10.0 < v <= 20.0 <==> Warmth(v) == 2
    ensures 20.0 < v <= 30.0 <==> Warmth(v) == 3
    ensures 30.0 < v <==> Warmth(v) == 4
  {
  }

  /** The colours are distinct, so the colour names the bucket. */
  lemma PaletteIsInjective(i: nat, j: nat)
    requires i < |Palette| && j < |Palette| && Palette[i] == Palette[j]
    ensures i == j
  {
  }

  /** A warmer reading never gets a colder colour. */
  lemma ColorIsMonotone(v: real, w: real, themeDefault: string, i: nat, j: nat)
    requires v <= w
    requires i < |Palette| && Palette[i] == TempToColor(Some(v), themeDefault)
    requires j < |Palette| && Palette[j] == TempToColor(Some(w), themeDefault)
    ensures i <= j
  {
    ColorIsBucket(v, themeDefault);
    ColorIsBucket(w, themeDefault);
    PaletteIsInjective(i, Warmth(v));
    PaletteIsInjective(j, Warmth(w));
  }
}

=== FILE: theme.dfy ===
/** `detectDefaultTheme` and the name `applyTheme` saves. The saved
    preference is a parameter: `None` when the key is absent or the storage
    cannot be read. */
module Theme {
  import opened Wrappers

  datatype Theme = Day | Night

  /** The name `applyTheme` stores and puts in the `theme-<name>` class. */
  function Name(t: Theme): string {
    match t
    case Day => "day"
    case Night => "night"
  }

  /** `hour` is `new Date().getHours()`. */
  function DetectDefault(saved: Option<string>, hour: int): (t: Theme)
    ensures saved == Some("day") ==> t == Day
    ensures saved == Some("night") ==> t == Night
    ensures saved != Some("day") && saved != Some("night") ==>
              (t == Day <==> 7 <= hour < 19)
  {
    if saved == Some("day") then Day
    else if saved == Some("night") then Night
    else if hour >= 7 && hour < 19 then Day
    else Night
  }

  /** What `applyTheme` saves is what the next start-up restores, whatever the hour. */
  lemma SavedThemeRoundTrip(t: Theme, hour: int)
    ensures DetectDefault(Some(Name(t)), hour) == t
  {
  }
}

=== FILE: wrappers.dfy ===
/** The optional-value datatype used wherever the dashboard reads a field
    that may be absent (`undefined`, `null`, `NaN` or an unparseable text). */
module Wrappers {

  datatype Option<+T> = None | Some(value: T) {

    /** The wrapped value, or `default` when there is none (JavaScript's `x || d`
        when only absence is falsy). */
    function GetOr(default: T): T {
      match this
      case Some(v) => v
      case None => default
    }
  }
}
